=== FILE: README.md ===
# Instagram analytics scraper: a Dafny model of the data-acquisition core

This project models the scraper script `scrapper/scrapper_final.py`. Each run
collects one Instagram account. It fetches the account's profile from a
third-party API and writes one account snapshot. It then walks the posts
endpoint page by page and writes one batch of post documents. The model has
six modules in five files:

- `Json` and `Errors` (values.dfy). `Json` holds decoded JSON values and the
  Python built-ins the script applies to them: truthiness, `str()` inside an
  f-string, and `dict.get` with a default. `Errors` holds the exceptions the
  script raises or lets escape.
- `Fetcher` (fetcher.dfy). This is `fetch_data`, the bounded retry loop with
  exponential backoff. The HTTP layer is a server function that gives the
  response to the k-th request. The sleeps become a log of delays.
  `FetchSpec` describes the loop without the loop: the first response that is
  not a retried failure decides the call. `FetchSpecDeterministic` shows that
  this description admits exactly one outcome.
- `Paginator` (paginator.dfy). This is the posts loop of `get_all_data`. It
  runs over the sequence of fetch results for the successive posts requests.
  It collects each page's longest prefix of posts that are no older than the
  cutoff, and it breaks on the first stale post. `FreshLength`, `PageFresh`
  and `ConcatFresh` are independent reference definitions of what should be
  collected.
- `Persister` (persister.dfy). This covers the documents built by
  `save_account_data_to_mongodb` and `save_posts_data_to_mongodb`: the
  composite id with the sanitised run time, the `"N/A"` defaults, the links,
  and the post batch.
- `Scraper` (scraper.dfy). This is `get_all_data` itself, composing the
  parts above.

The posts loop is modelled as written, including two edge cases:

- `post_timestamp` is a function-level variable, so it keeps its value
  across pages. If the loop reaches the check on line 126 before any post has
  been examined, the script raises `UnboundLocalError`. That happens only
  when the first page has no posts and carries a token: any later page is
  reached only after a page with posts. With no token the `is None` test
  short-circuits and the loop simply ends. See
  `Paginator.EmptyFirstPageUnbound` and `Paginator.UnboundOnlyOnFirstPage`.
- Line 111 treats a falsy token (such as `""`) as "no token" and requests the
  first page again. Line 126, however, only stops on `None`. A server that
  keeps answering with fresh posts and an empty token therefore keeps the loop
  going for ever. In the model the loop consumes every page it is given and
  reports `Pending`. See `Paginator.EmptyTokenRefetches`.

Two more points about the script:

- The snapshot takes its own `utcnow()` reading (line 50) and the post
  batch another (line 66). These are separate readings, so the account and
  post run times of one run may differ. `GetAllData` therefore takes two
  run-time parameters. As the comment on line 66 says, all posts of one
  batch share a single run time.
- The guards on lines 98 and 113 use Python's `in` on whatever the response
  holds. `in` on `null`, a boolean or a number raises TypeError; on a list or
  a string it tests membership or a substring, and a hit then fails to index
  with TypeError. A `data` of `null` therefore aborts the run instead of
  ending the loop. `Json.Member` models this, and the posts loop iterates an
  `items` string by characters and an `items` dict by keys, as Python does.

## Model

| member | source | states |
|---|---|---|
| `Fetcher.FetchData` | scrapper/scrapper_final.py:28-45 | The retry loop satisfies FetchSpec. Non-200 statuses and HTTPException are retried. The first 200 response's body is returned after at most max_retries requests. Any other exception escapes on its first occurrence. Failure number k (from 0) sleeps 2^k. Exhausting the attempts sleeps max_retries times, then raises. The only exceptions it raises are the exhaustion error and an escaped one. |
| `Fetcher.FetchSpecDeterministic` | scrapper/scrapper_final.py:28-45 | FetchSpec leaves no freedom: two outcomes that satisfy it for the same server and retry bound are equal, so the loop's contract pins down its result, request count and delay log. |
| `Fetcher.BackoffTotal` | scrapper/scrapper_final.py:37-44 | n consecutive failures sleep 2^n - 1 seconds in total. |
| `Fetcher.NoRetriesNoRequest` | scrapper/scrapper_final.py:30-45 | When max_retries <= 0, the call raises without sending a request or sleeping. |
| `Fetcher.TwoFailuresThenSuccess` | scrapper/scrapper_final.py:31-44 | With the default bound of 3, two retried failures followed by a 200 return that body after three requests and sleeps of 1 and 2. |
| `Fetcher.ThreeFailuresRaise` | scrapper/scrapper_final.py:31-45 | With the default bound, three retried failures raise after three requests and sleeps of 1, 2 and 4. The last failure sleeps too. |
| `Fetcher.OtherErrorEscapes` | scrapper/scrapper_final.py:32-44 | An exception other than HTTPException on the first request escapes after one request and no sleep. |
| `Paginator.FreshLength` | scrapper/scrapper_final.py:119-123 | Reference definition: the length of the longest prefix of a page whose posts all have a usable timestamp no older than the cutoff. The next post, if any, is not fresh. |
| `Paginator.ScanPage` | scrapper/scrapper_final.py:119-123 | The inner loop appends exactly the fresh prefix. It stops on a stale post and records that post's timestamp. It raises on the first post with an unusable timestamp. On an empty page it leaves post_timestamp unchanged. |
| `Paginator.Walk` | scrapper/scrapper_final.py:110-127 | Every collected post is at or after the cutoff. Each page is requested at most once. The first request uses the current token, or none if that token is falsy. A loop that has not broken has consumed every page. |
| `Paginator.PaginateCollects` | scrapper/scrapper_final.py:110-127 | The collected list equals the concatenation, in page order, of the fresh prefixes of the pages requested. |
| `Paginator.PaginateRequests` | scrapper/scrapper_final.py:110-125 | The first posts request asks for the first page. Every later request follows a fetched page and carries the token that page's response returned, or asks for the first page again when that token is falsy. |
| `Paginator.PaginateStops` | scrapper/scrapper_final.py:110-127 | Each page before the last one requested reached the inner loop with only fresh posts and a token, and the first one also had at least one post. The last page decides the single reported outcome: the exception raised reaching the inner loop, no data or items, the first unusable timestamp, no token, a stale post, or UnboundLocalError for an empty first page with a token. |
| `Paginator.UnboundOnlyOnFirstPage` | scrapper/scrapper_final.py:119-126 | An UnboundLocalError not raised by a fetch comes only from the first page, when that page has no posts and carries a token. |
| `Paginator.UnboundOnlyFromEmptyFirstPage` | scrapper/scrapper_final.py:119-126 | When every raised page carries an exception the fetch can raise, any UnboundLocalError comes from an empty first page with a token, after one request. |
| `Paginator.StepEnds` | scrapper/scrapper_final.py:112-127 | A page that does not continue the loop is the last one requested, and it decides the final status. |
| `Paginator.StepContinues` | scrapper/scrapper_final.py:119-127 | A page that continues the loop contributes all its posts. The rest of the walk starts from its token and from its last post's timestamp, or the previous timestamp for an empty page, and that timestamp is bound and not stale. |
| `Paginator.PageDecides` | scrapper/scrapper_final.py:112-127 | A page either continues the loop or ends it with exactly one status, never both. |
| `Paginator.FirstPostStale` | scrapper/scrapper_final.py:119-127 | If the first page's first post is stale, nothing is collected and the loop ends after one request. |
| `Paginator.EmptyFirstPageUnbound` | scrapper/scrapper_final.py:119-126 | A first page with an empty item list and a token makes the loop raise UnboundLocalError after one request. |
| `Paginator.NullDataRaises` | scrapper/scrapper_final.py:113 | A posts response whose `data` is null raises TypeError after one request rather than ending the loop. |
| `Paginator.EmptyTokenRefetches` | scrapper/scrapper_final.py:111-127 | The server may keep returning a page of fresh posts whose token is the empty string. The loop then never breaks: it requests the first-page URL every time and consumes every page it is given. |
| `Persister.Sanitize` | scrapper/scrapper_final.py:51 | The sanitised run time contains no `:`, `-` or `.`. Every other character occurs in it exactly as often as in the run time. |
| `Persister.SanitizeFixed` | scrapper/scrapper_final.py:51 | Sanitising leaves a string unchanged exactly when the string has no separator. |
| `Persister.SanitizeIdempotent` | scrapper/scrapper_final.py:51 | Sanitising twice gives the same result as sanitising once. |
| `Persister.SanitizeAppend` | scrapper/scrapper_final.py:51 | Sanitising a concatenation is the concatenation of the sanitised parts. |
| `Persister.CompositeIdShape` | scrapper/scrapper_final.py:51 | The composite id is the username text, then `_`, then a suffix free of separators that keeps every other character of the run time. |
| `Persister.CompositeIdSameUser` | scrapper/scrapper_final.py:51 | For one username, two run times give the same id exactly when they sanitise to the same string. |
| `Persister.CompositeIdSameTime` | scrapper/scrapper_final.py:51 | For one run time, equal ids imply equal username text. |
| `Persister.AccountDocument` | scrapper/scrapper_final.py:49-61 | The snapshot has exactly the seven fields. username, full_name, follower_count and media_count are copied, or "N/A" when missing. `_id` is the composite id. profile_link is the profile URL of the username. run_time keeps the unsanitised run time. |
| `Persister.PostDocument` | scrapper/scrapper_final.py:69-82 | A post document exists exactly when the post is an object whose taken_at is missing, falsy or a number. Otherwise the error is AttributeError or TypeError. It has the eight fields and carries the passed username and the shared run time. post_link is built from the post's code. taken_at is "N/A" exactly when missing or falsy, 0 included. It is the formatted time with a trailing Z for a non-zero number, and for `true`, which Python reads as 1. |
| `Persister.PostDocuments` | scrapper/scrapper_final.py:67-83 | On success there is one document per post, in input order, each the post's own document. A failure happens exactly when some post has no document, and its exception is the one raised on the first such post. |
| `Persister.SavePosts` | scrapper/scrapper_final.py:65-85 | An empty input inserts nothing. A failure happens exactly when some post cannot be converted, and it carries the first such post's exception. An insert holds each post's own document, in order, all with the same run time and username, with each post's id and link. |
| `Scraper.GetAllData` | scrapper/scrapper_final.py:88-130 | If the account fetch raises, nothing is written. A snapshot is written exactly when the response's `data` is an object, and it is that data's account document. Without `data` the run ends with nothing written and no posts request. The TypeError of `in` on a null, boolean or number response, or of indexing a list or string, aborts the run before anything is written. A `data` that is not an object aborts with AttributeError. Once the snapshot is written, the run makes exactly the posts loop's requests. A posts loop that raises aborts the run with that exception and stores no post. A loop that wants more pages than were given leaves the run unfinished with no post stored. Posts are stored only by a completed run that has a snapshot. |
| `Scraper.NullAccountResponseAborts` | scrapper/scrapper_final.py:98 | A null account response raises TypeError: nothing is written and no posts request is sent. |
| `Scraper.FreshPostsPersist` | scrapper/scrapper_final.py:70-71 | Every post the loop can collect can be converted, so the post batch never fails on collected posts. |
| `Scraper.RunStoresCollected` | scrapper/scrapper_final.py:119-130 | When the posts loop ends with a break, the run completes. It stores one document per collected post, in order, with the posts run time and the run's username. |
| `Scraper.StaleFirstPostStoresNothing` | scrapper/scrapper_final.py:119-130 | If the first post of the first page is stale, the run writes the snapshot, stores no post and makes one posts request. |
| `Scraper.OneOfTwoPostsInWindow` | scrapper/scrapper_final.py:106-130 | One page holds two posts: one inside the window and one older, with no token. The run stores exactly one document, the one for the recent post. |

## Left out

- HTTP transport: the HTTPS connection, the headers and the API key (lines 29-34 and 91-94) are replaced by the server function and by fetch results given as inputs. `GetAllData` takes each fetch's result rather than running `FetchData`, and those results are unconstrained inputs: a raised page may carry any exception. `FetchData` promises that it raises only `RetriesExhausted` or `Unretried` (`FetchRaises`), and `Paginator.UnboundOnlyFromEmptyFirstPage` shows what that adds.
- Connection reuse: the model does not capture that `http.client` refuses a new request on a connection whose previous non-200 response was not read. The server function decides every response.
- JSON decoding of a 200 body: the body arrives already decoded, so a decoding failure is not modelled. Floating-point values are not part of `Value`.
- MongoDB: the client (lines 17-21) and `insert_one`/`insert_many` (lines 62 and 85) become the returned documents. A duplicate-key error on insert is therefore not modelled.
- Clocks and formatting: the `utcnow().isoformat()` readings are string parameters. `utcfromtimestamp(t).isoformat()` is the function parameter `iso`. The range errors of `utcfromtimestamp` are not modelled. `end_time` (line 108) is the integer cutoff in seconds.
- Startup: environment variables, the API-key check and argparse (lines 13-26 and 133-138) are not modelled. `print` logging is not modelled.
- Iteration order of a dict: a non-empty `items` dict is reported directly as the AttributeError its first key raises at `post.get`, because a map has no key order. Every key is a string, so the exception is the same whatever the order.
- Json.Format: arrays and objects render as a placeholder, not as Python's repr. Only strings, numbers, booleans and null are rendered exactly.
- Pending: a finite sequence of pages stands in for the server. When the loop asks for more pages than were given, the run reports `Pending`/`Unfinished` rather than running on.
- The dashboard (`dashboard/dashboard/instagram_dashboard.py`) is not part of this model. It is presentation over a plotting library, and its read-side deduplication is a library call.

=== FILE: fetcher.dfy ===
/** `fetch_data`: one GET request repeated with exponential backoff.
    The HTTP layer is a server function giving the response to the k-th
    request (counting from 0); `time.sleep` becomes a log of delays. */
module Fetcher {
  import opened Json
  import opened Errors

  /** The default `max_retries` that every caller in the scraper uses. */
  const DefaultMaxRetries: int := 3

  /** What one `conn.request` / `conn.getresponse()` pair yields: a response
      with a status and its decoded body, an `HTTPException`, or any other
      exception. */
  datatype Response =
    | Reply(status: int, body: Value)
    | HttpError
    | OtherError(kind: string)

  /** The failures the loop sleeps on and tries again: a status other than
      200, or an `HTTPException`. */
  predicate Retried(r: Response) {
    (r.Reply? && r.status != 200) || r.HttpError?
  }

  /** What a call returns to its caller: the decoded body, or the exception
      it raises. */
  datatype FetchResult = Fetched(body: Value) | Raised(exception: Exception)

  /** The only exceptions `fetch_data` lets reach its caller. */
  predicate FetchRaises(e: Exception) {
    e.RetriesExhausted? || e.Unretried?
  }

  /** A call's result, the number of requests it sent and the delays it
      slept, in order. */
  datatype FetchOutcome = FetchOutcome(result: FetchResult, requests: nat, delays: seq<nat>)

  function Pow2(k: nat): (p: nat)
    ensures p >= 1
  {
    if k == 0 then 1 else 2 * Pow2(k - 1)
  }

  /** The delays slept after n consecutive failures: 1, 2, 4, ... */
  function Backoff(n: nat): (d: seq<nat>)
    ensures |d| == n
    ensures forall k :: 0 <= k < n ==> d[k] == Pow2(k)
  {
    if n == 0 then [] else Backoff(n - 1) + [Pow2(n - 1)]
  }

  function Max0(n: int): nat {
    if n < 0 then 0 else n
  }

  ghost predicate FailuresBefore(server: nat -> Response, n: nat) {
    forall j: nat :: j < n ==> Retried(server(j))
  }

  /** The behaviour of `fetch_data(url, headers, maxRetries)` stated without
      the loop: the first response that is not a retried failure decides the
      call, provided it comes within `maxRetries` requests; every retried
      failure before it slept 2^k seconds. */
  ghost predicate FetchSpec(server: nat -> Response, maxRetries: int, out: FetchOutcome) {
    match out.result
    case Fetched(body) =>
      && 1 <= out.requests <= maxRetries
      && FailuresBefore(server, out.requests - 1)
      && server(out.requests - 1) == Reply(200, body)
      && out.delays == Backoff(out.requests - 1)
    case Raised(e) =>
      if e.RetriesExhausted? then
        && e.maxRetries == maxRetries
        && out.requests == Max0(maxRetries)
        && FailuresBefore(server, out.requests)
        && out.delays == Backoff(out.requests)
      else
        && e.Unretried?
        && 1 <= out.requests <= maxRetries
        && FailuresBefore(server, out.requests - 1)
        && server(out.requests - 1) == OtherError(e.kind)
        && out.delays == Backoff(out.requests - 1)
  }

  /** The retry loop of `fetch_data`. */
  method FetchData(server: nat -> Response, maxRetries: int) returns (out: FetchOutcome)
    ensures FetchSpec(server, maxRetries, out)
    ensures out.result.Raised? ==> FetchRaises(out.result.exception)
  {
    var attempts: nat := 0;
    var delays: seq<nat> := [];
    while attempts < maxRetries
      invariant attempts == 0 || attempts <= maxRetries
      invariant delays == Backoff(attempts)
      invariant FailuresBefore(server, attempts)
      decreases maxRetries - attempts
    {
      var response := server(attempts);
      match response {
        case Reply(status, body) =>
          if status == 200 {
            return FetchOutcome(Fetched(body), attempts + 1, delays);
          }
        case HttpError =>
        case OtherError(kind) =>
          return FetchOutcome(Raised(Unretried(kind)), attempts + 1, delays);
      }
      // a non-200 status or an HTTPException: sleep 2^attempts, try again
      delays := delays + [Pow2(attempts)];
      attempts := attempts + 1;
    }
    return FetchOutcome(Raised(RetriesExhausted(maxRetries)), attempts, delays);
  }

  /** FetchSpec leaves no freedom: a server and a retry bound determine the
      outcome, so it describes `fetch_data` completely. */
  lemma FetchSpecDeterministic(server: nat -> Response, maxRetries: int, a: FetchOutcome, b: FetchOutcome)
    requires FetchSpec(server, maxRetries, a)
    requires FetchSpec(server, maxRetries, b)
    ensures a == b
  {
  }

  function Sum(s: seq<nat>): nat {
    if |s| == 0 then 0 else Sum(s[..|s| - 1]) + s[|s| - 1]
  }

  /** n failed attempts sleep 2^n - 1 seconds in all. */
  lemma {:induction false} BackoffTotal(n: nat)
    ensures Sum(Backoff(n)) == Pow2(n) - 1
  {
    if n > 0 {
      BackoffTotal(n - 1);
      var d := Backoff(n);
      assert d[..|d| - 1] == Backoff(n - 1);
    }
  }

  /** With no retries allowed the call raises at once, without a request or
      a sleep. */
  lemma NoRetriesNoRequest(server: nat -> Response, maxRetries: int, out: FetchOutcome)
    requires maxRetries <= 0
    requires FetchSpec(server, maxRetries, out)
    ensures out == FetchOutcome(Raised(RetriesExhausted(maxRetries)), 0, [])
  {
  }

  /** Two failures then a 200 under the default bound: the body is returned
      after sleeping 1 and then 2 seconds. */
  lemma TwoFailuresThenSuccess(server: nat -> Response, body: Value, out: FetchOutcome)
    requires Retried(server(0)) && Retried(server(1))
    requires server(2) == Reply(200, body)
    requires FetchSpec(server, DefaultMaxRetries, out)
    ensures out == FetchOutcome(Fetched(body), 3, [1, 2])
  {
    var expected := FetchOutcome(Fetched(body), 3, [1, 2]);
    assert Backoff(2) == [1, 2] by {
      assert Backoff(1) == [1];
    }
    assert FetchSpec(server, DefaultMaxRetries, expected);
    FetchSpecDeterministic(server, DefaultMaxRetries, out, expected);
  }

  /** Three retried failures exhaust the default bound: the call raises after
      sleeping 1, 2 and 4 seconds, the last failure included. */
  lemma ThreeFailuresRaise(server: nat -> Response, out: FetchOutcome)
    requires Retried(server(0)) && Retried(server(1)) && Retried(server(2))
    requires FetchSpec(server, DefaultMaxRetries, out)
    ensures out == FetchOutcome(Raised(RetriesExhausted(3)), 3, [1, 2, 4])
  {
    var expected := FetchOutcome(Raised(RetriesExhausted(3)), 3, [1, 2, 4]);
    assert Backoff(3) == [1, 2, 4] by {
      assert Backoff(1) == [1];
      assert Backoff(2) == [1, 2];
    }
    assert FetchSpec(server, DefaultMaxRetries, expected);
    FetchSpecDeterministic(server, DefaultMaxRetries, out, expected);
  }

  /** An exception other than `HTTPException` on the first request escapes
      at once, with no sleep. */
  lemma OtherErrorEscapes(server: nat -> Response, maxRetries: int, kind: string, out: FetchOutcome)
    requires maxRetries >= 1
    requires server(0) == OtherError(kind)
    requires FetchSpec(server, maxRetries, out)
    ensures out == FetchOutcome(Raised(Unretried(kind)), 1, [])
  {
    var expected := FetchOutcome(Raised(Unretried(kind)), 1, []);
    assert FetchSpec(server, maxRetries, expected);
    FetchSpecDeterministic(server, maxRetries, out, expected);
  }
}

=== FILE: paginator.dfy ===
/** The posts loop of `get_all_data`: cursor pagination that stops at the
    first post older than the cutoff. Each element of `pages` is what the
    fetch of the corresponding posts request returned; the cutoff is the
    `end_time` of the run, in seconds. */
module Paginator {
  import opened Json
  import opened Errors
  import opened Fetcher

  /** `post.get('taken_at', 0)` as a number of seconds: None when the post is
      not an object or its `taken_at` is not a number, where the script's
      `.get` or `utcfromtimestamp` would raise. */
  function StampOf(post: Value): Option<int> {
    match post
    case Obj(f) =>
      if "taken_at" !in f then Some(0)
      else (match f["taken_at"]
        case Int(n) => Some(n)
        case Bool(b) => Some(if b then 1 else 0)
        case _ => None)
    case _ => None
  }

  predicate IsFresh(post: Value, cutoff: int) {
    StampOf(post).Some? && StampOf(post).value >= cutoff
  }

  predicate IsStale(post: Value, cutoff: int) {
    StampOf(post).Some? && StampOf(post).value < cutoff
  }

  /** The exception the script raises on a post whose timestamp is unusable. */
  function StampError(post: Value): Exception {
    if post.Obj? then TypeError else AttributeError
  }

  /** `resp['data']['items']` behind the guard
      `'data' in resp and 'items' in resp['data']`: None when the guard is
      false, so that the loop breaks, or the exception evaluating it raises. */
  function ItemsOf(resp: Value): Result<Option<Value>> {
    match Member(resp, "data")
    case Err(e) => Err(e)
    case Ok(None) => Ok(None)
    case Ok(Some(data)) => Member(data, "items")
  }

  /** What `for post in posts` iterates over: the elements of a list, the
      one-character strings of a string, nothing for an empty dict. A
      non-empty dict yields its keys, all strings, so the first `post.get`
      raises AttributeError whatever their order; that exception is reported
      here. Null, booleans and numbers are not iterable. */
  function PostsOf(items: Value): Result<seq<Value>> {
    match items
    case Arr(e) => Ok(e)
    case Str(s) => Ok(seq(|s|, i requires 0 <= i < |s| => Str([s[i]])))
    case Obj(f) => if f == map[] then Ok([]) else Err(AttributeError)
    case _ => Err(TypeError)
  }

  /** The posts of a response, None when the loop breaks before the inner
      loop, or the exception raised on the way. */
  function PagePosts(resp: Value): Result<Option<seq<Value>>> {
    match ItemsOf(resp)
    case Err(e) => Err(e)
    case Ok(None) => Ok(None)
    case Ok(Some(items)) =>
      match PostsOf(items)
      case Err(e) => Err(e)
      case Ok(posts) => Ok(Some(posts))
  }

  /** The posts the inner loop runs over on a page, if it gets that far. */
  function PostsOnPage(page: FetchResult): Option<seq<Value>> {
    if page.Fetched? && PagePosts(page.body).Ok? then PagePosts(page.body).value else None
  }

  /** `resp.get('pagination_token')`: Null when absent. */
  function TokenOf(resp: Value): Value {
    if resp.Obj? then Get(resp.fields, "pagination_token", Null) else Null
  }

  /** The token sent with a request: none when the current token is falsy,
      so that an empty-string token asks for the first page again. */
  function RequestFor(token: Value): Option<string> {
    if Truthy(token) then Some(Format(token)) else None
  }

  /** Reference definition: the length of the longest prefix of `items`
      whose posts all carry a timestamp at or after the cutoff. */
  function FreshLength(items: seq<Value>, cutoff: int): (k: nat)
    ensures k <= |items|
    ensures forall i :: 0 <= i < k ==> IsFresh(items[i], cutoff)
    ensures k < |items| ==> !IsFresh(items[k], cutoff)
  {
    if |items| == 0 || !IsFresh(items[0], cutoff) then 0
    else 1 + FreshLength(items[1..], cutoff)
  }

  function FreshPrefix(items: seq<Value>, cutoff: int): seq<Value> {
    items[..FreshLength(items, cutoff)]
  }

  /** Reference definition: the posts a page contributes, which is the fresh
      prefix of its posts, or nothing when the inner loop is not reached. */
  function PageFresh(page: FetchResult, cutoff: int): seq<Value> {
    match PostsOnPage(page)
    case Some(items) => FreshPrefix(items, cutoff)
    case None => []
  }

  /** Reference definition: the fresh prefixes of the given pages, in order. */
  function ConcatFresh(pages: seq<FetchResult>, cutoff: int): seq<Value> {
    if |pages| == 0 then [] else PageFresh(pages[0], cutoff) + ConcatFresh(pages[1..], cutoff)
  }

  /** The result of the inner `for post in posts` loop: the posts appended and
      the value `post_timestamp` holds afterwards (still `last` when the page
      was empty), or the exception raised with the posts appended before it. */
  datatype Scan =
    | Scanned(kept: seq<Value>, seen: Option<int>)
    | ScanFailed(exception: Exception, partial: seq<Value>)

  /** The inner loop over one page. */
  function ScanPage(items: seq<Value>, cutoff: int, last: Option<int>): (r: Scan)
    ensures var k := FreshLength(items, cutoff);
      && (r.Scanned? ==> r.kept == FreshPrefix(items, cutoff))
      && (r.ScanFailed? ==> r.partial == FreshPrefix(items, cutoff))
      && (r.ScanFailed? <==> k < |items| && StampOf(items[k]).None?)
      && (r.ScanFailed? ==> r.exception == StampError(items[k]))
      && (r.Scanned? && k < |items| ==> IsStale(items[k], cutoff) && r.seen == StampOf(items[k]))
      && (r.Scanned? && 0 < k == |items| ==> r.seen == StampOf(items[k - 1]))
      && (r.Scanned? && |items| == 0 ==> r.seen == last)
    decreases |items|
  {
    if |items| == 0 then Scanned([], last)
    else
      var post := items[0];
      match StampOf(post)
      case None => ScanFailed(StampError(post), [])
      case Some(t) =>
        if t < cutoff then Scanned([], Some(t))
        else
          assert items[1..][..FreshLength(items[1..], cutoff)] == items[1..FreshLength(items, cutoff)];
          match ScanPage(items[1..], cutoff, Some(t))
          case Scanned(kept, seen) => Scanned([post] + kept, seen)
          case ScanFailed(e, partial) => ScanFailed(e, [post] + partial)
  }

  /** Why the loop left with a `break`. */
  datatype Stop =
    | EndOfData   // the response has no `data`/`items`
    | NoToken     // the response carries no pagination token
    | StalePost   // the scan stopped at a post older than the cutoff

  datatype Status =
    | Finished(stop: Stop)
    | Failed(exception: Exception)
    | Pending     // the loop asks for more pages than were given

  /** The collected posts (`all_posts`), the token sent with each posts
      request (None for the first-page URL), and how the loop ended. */
  datatype Pagination = Pagination(posts: seq<Value>, requests: seq<Option<string>>, status: Status)

  /** The `while True` loop, from a state with pagination token `token` and
      `post_timestamp` equal to `last` (None while unbound). */
  function Walk(pages: seq<FetchResult>, cutoff: int, token: Value, last: Option<int>): (r: Pagination)
    requires last.Some? ==> last.value >= cutoff
    ensures forall i :: 0 <= i < |r.posts| ==> IsFresh(r.posts[i], cutoff)
    ensures |r.requests| <= |pages|
    ensures r.status.Pending? ==> |r.requests| == |pages|
    ensures 0 < |pages| ==> 0 < |r.requests| && r.requests[0] == RequestFor(token)
    decreases |pages|
  {
    if |pages| == 0 then Pagination([], [], Pending)
    else
      var req := RequestFor(token);
      match pages[0]
      case Raised(e) => Pagination([], [req], Failed(e))
      case Fetched(resp) =>
        match PagePosts(resp)
        case Err(e) => Pagination([], [req], Failed(e))
        case Ok(None) => Pagination([], [req], Finished(EndOfData))
        case Ok(Some(items)) =>
          match ScanPage(items, cutoff, last)
          case ScanFailed(e, partial) => Pagination(partial, [req], Failed(e))
          case Scanned(kept, seen) =>
            var next := TokenOf(resp);
            if next.Null? then Pagination(kept, [req], Finished(NoToken))
            else if seen.None? then Pagination(kept, [req], Failed(UnboundLocal))
            else if seen.value < cutoff then Pagination(kept, [req], Finished(StalePost))
            else
              var rest := Walk(pages[1..], cutoff, next, seen);
              Pagination(kept + rest.posts, [req] + rest.requests, rest.status)
  }

  /** The posts loop of `get_all_data`: no token and no timestamp yet. */
  function Paginate(pages: seq<FetchResult>, cutoff: int): Pagination {
    Walk(pages, cutoff, Null, None)
  }

  /** A page after which the loop goes on: the inner loop is reached, every
      post is fresh, the page carries a token, and `post_timestamp` is bound
      afterwards (`unbound` says it was not bound before the page). */
  predicate Continues(page: FetchResult, cutoff: int, unbound: bool) {
    && page.Fetched?
    && PostsOnPage(page).Some?
    && var items := PostsOnPage(page).value;
       && FreshLength(items, cutoff) == |items|
       && !TokenOf(page.body).Null?
       && (unbound ==> 0 < |items|)
  }

  /** The page on which the loop ended, and the one status it ends with,
      decided from the page alone: the exception raised reaching the inner
      loop, no `data`/`items`, the first post whose timestamp is unusable, no
      token, the first stale post, and finally an empty page read while
      `post_timestamp` is still unbound. A page that continues the loop
      satisfies none of these. */
  predicate EndsWith(page: FetchResult, cutoff: int, status: Status, unbound: bool) {
    match page
    case Raised(e) => status == Failed(e)
    case Fetched(resp) =>
      match PagePosts(resp)
      case Err(e) => status == Failed(e)
      case Ok(None) => status == Finished(EndOfData)
      case Ok(Some(items)) =>
        var k := FreshLength(items, cutoff);
        if k < |items| && StampOf(items[k]).None? then status == Failed(StampError(items[k]))
        else if TokenOf(resp).Null? then status == Finished(NoToken)
        else if k < |items| then status == Finished(StalePost)
        else unbound && |items| == 0 && status == Failed(UnboundLocal)
  }

  /** Every page either continues the loop or ends it, with exactly one
      status. */
  lemma PageDecides(page: FetchResult, cutoff: int, unbound: bool, s1: Status, s2: Status)
    ensures Continues(page, cutoff, unbound) ==> !EndsWith(page, cutoff, s1, unbound)
    ensures !Continues(page, cutoff, unbound) ==> exists s :: EndsWith(page, cutoff, s, unbound)
    ensures EndsWith(page, cutoff, s1, unbound) && EndsWith(page, cutoff, s2, unbound) ==> s1 == s2
  {
    if !Continues(page, cutoff, unbound) {
      match page
      case Raised(e) =>
        assert EndsWith(page, cutoff, Failed(e), unbound);
      case Fetched(resp) =>
        match PagePosts(resp)
        case Err(e) =>
          assert EndsWith(page, cutoff, Failed(e), unbound);
        case Ok(None) =>
          assert EndsWith(page, cutoff, Finished(EndOfData), unbound);
        case Ok(Some(items)) =>
          var k := FreshLength(items, cutoff);
          if k < |items| && StampOf(items[k]).None? {
            assert EndsWith(page, cutoff, Failed(StampError(items[k])), unbound);
          } else if TokenOf(resp).Null? {
            assert EndsWith(page, cutoff, Finished(NoToken), unbound);
          } else if k < |items| {
            assert EndsWith(page, cutoff, Finished(StalePost), unbound);
          } else {
            assert EndsWith(page, cutoff, Failed(UnboundLocal), unbound);
          }
    }
  }

  /** `post_timestamp` after the inner loop ran over `items` without a break:
      the last post's timestamp, or the earlier value for an empty page. */
  function LastSeen(items: seq<Value>, last: Option<int>): Option<int> {
    if |items| == 0 then last else StampOf(items[|items| - 1])
  }

  /** A page that does not continue the loop is the last one requested, and
      it gives the reason reported. */
  lemma StepEnds(pages: seq<FetchResult>, cutoff: int, token: Value, last: Option<int>)
    requires last.Some? ==> last.value >= cutoff
    requires 0 < |pages| && !Continues(pages[0], cutoff, last.None?)
    ensures var r := Walk(pages, cutoff, token, last);
      && |r.requests| == 1
      && !r.status.Pending?
      && EndsWith(pages[0], cutoff, r.status, last.None?)
      && r.posts == PageFresh(pages[0], cutoff)
  {
  }

  /** A page that continues the loop contributes all its posts, and the rest
      of the walk starts from its token and from the timestamp of its last
      post (or the previous one, for an empty page). */
  lemma StepContinues(pages: seq<FetchResult>, cutoff: int, token: Value, last: Option<int>)
    requires last.Some? ==> last.value >= cutoff
    requires 0 < |pages| && Continues(pages[0], cutoff, last.None?)
    ensures var items := PostsOnPage(pages[0]).value;
      var next := LastSeen(items, last);
      && next.Some? && next.value >= cutoff
      && PageFresh(pages[0], cutoff) == items
      && var r := Walk(pages, cutoff, token, last);
         var rest := Walk(pages[1..], cutoff, TokenOf(pages[0].body), next);
         r == Pagination(items + rest.posts, [RequestFor(token)] + rest.requests, rest.status)
  {
    var items := PostsOnPage(pages[0]).value;
    assert FreshPrefix(items, cutoff) == items;
  }

  /** Prefixing a page to the pages of a walk prefixes its fresh posts. */
  lemma CollectsCons(pages: seq<FetchResult>, cutoff: int, posts: seq<Value>, n: nat)
    requires 0 < |pages| && n < |pages|
    requires posts == ConcatFresh(pages[1..][..n], cutoff)
    ensures PageFresh(pages[0], cutoff) + posts == ConcatFresh(pages[..n + 1], cutoff)
  {
    assert pages[..n + 1][1..] == pages[1..][..n];
  }

  lemma CollectsFirst(pages: seq<FetchResult>, cutoff: int, token: Value, last: Option<int>)
    requires last.Some? ==> last.value >= cutoff
    requires 0 < |pages| && !Continues(pages[0], cutoff, last.None?)
    ensures var r := Walk(pages, cutoff, token, last);
      r.posts == ConcatFresh(pages[..|r.requests|], cutoff)
  {
    StepEnds(pages, cutoff, token, last);
    CollectsCons(pages, cutoff, [], 0);
  }

  lemma CollectsStep(pages: seq<FetchResult>, cutoff: int, token: Value, last: Option<int>)
    requires last.Some? ==> last.value >= cutoff
    requires 0 < |pages| && Continues(pages[0], cutoff, last.None?)
    requires var next := LastSeen(PostsOnPage(pages[0]).value, last);
      && (next.Some? ==> next.value >= cutoff)
      && var rest := Walk(pages[1..], cutoff, TokenOf(pages[0].body), next);
         rest.posts == ConcatFresh(pages[1..][..|rest.requests|], cutoff)
    ensures var r := Walk(pages, cutoff, token, last);
      r.posts == ConcatFresh(pages[..|r.requests|], cutoff)
  {
    StepContinues(pages, cutoff, token, last);
    var items := PostsOnPage(pages[0]).value;
    var r := Walk(pages, cutoff, token, last);
    var rest := Walk(pages[1..], cutoff, TokenOf(pages[0].body), LastSeen(items, last));
    assert r.posts == PageFresh(pages[0], cutoff) + rest.posts;
    assert |r.requests| == |rest.requests| + 1;
    CollectsCons(pages, cutoff, rest.posts, |rest.requests|);
  }

  lemma {:induction false} WalkCollects(pages: seq<FetchResult>, cutoff: int, token: Value, last: Option<int>)
    requires last.Some? ==> last.value >= cutoff
    ensures var r := Walk(pages, cutoff, token, last);
      r.posts == ConcatFresh(pages[..|r.requests|], cutoff)
  {
    if |pages| > 0 {
      if !Continues(pages[0], cutoff, last.None?) {
        CollectsFirst(pages, cutoff, token, last);
      } else {
        StepContinues(pages, cutoff, token, last);
        WalkCollects(pages[1..], cutoff, TokenOf(pages[0].body), LastSeen(PostsOnPage(pages[0]).value, last));
        CollectsStep(pages, cutoff, token, last);
      }
    }
  }

  /** The collected list is the concatenation, in page order, of each
      requested page's longest prefix of posts at or after the cutoff. */
  lemma PaginateCollects(pages: seq<FetchResult>, cutoff: int)
    ensures var r := Paginate(pages, cutoff);
      r.posts == ConcatFresh(pages[..|r.requests|], cutoff)
  {
    WalkCollects(pages, cutoff, Null, None);
  }

  /** Page `j` continues the loop; `post_timestamp` can be unbound on the
      first page only. */
  predicate ContinuesAt(pages: seq<FetchResult>, cutoff: int, unbound: bool, j: int)
    requires 0 <= j < |pages|
  {
    Continues(pages[j], cutoff, unbound && j == 0)
  }

  /** How a walk over `pages` that made `n` requests and reported `status`
      relates to the pages: every page before the last one requested
      continues the loop, a walk that has not ended continued on every page,
      and an ended walk ends on its last page. */
  predicate Stops(pages: seq<FetchResult>, cutoff: int, unbound: bool, n: nat, status: Status) {
    && n <= |pages|
    && (forall j :: 0 <= j < n - 1 ==> ContinuesAt(pages, cutoff, unbound, j))
    && (status.Pending? ==> forall j :: 0 <= j < |pages| ==> ContinuesAt(pages, cutoff, unbound, j))
    && (!status.Pending? ==> 0 < n && EndsWith(pages[n - 1], cutoff, status, unbound && n == 1))
  }

  /** A walk that ends on its first page. */
  lemma StopsEnd(pages: seq<FetchResult>, cutoff: int, unbound: bool, status: Status)
    requires 0 < |pages| && !status.Pending?
    requires EndsWith(pages[0], cutoff, status, unbound)
    ensures Stops(pages, cutoff, unbound, 1, status)
  {
  }

  /** Prefixing a continuing page to a walk that starts with
      `post_timestamp` bound. */
  lemma StopsCons(pages: seq<FetchResult>, cutoff: int, unbound: bool, n: nat, status: Status)
    requires 0 < |pages| && Continues(pages[0], cutoff, unbound)
    requires Stops(pages[1..], cutoff, false, n, status)
    requires status.Pending? ==> n == |pages| - 1
    ensures Stops(pages, cutoff, unbound, n + 1, status)
  {
    forall j | 0 <= j < |pages|
      ensures j == 0 ==> ContinuesAt(pages, cutoff, unbound, j)
      ensures j > 0 ==> ContinuesAt(pages, cutoff, unbound, j) == ContinuesAt(pages[1..], cutoff, false, j - 1)
    {
      if j > 0 {
        assert pages[j] == pages[1..][j - 1];
      }
    }
    if !status.Pending? {
      assert pages[n] == pages[1..][n - 1];
    }
  }

  /** `post_timestamp` is unbound only on the first page, and only when the
      walk starts without one: a page that continues the loop binds it. */
  lemma StopsFirst(pages: seq<FetchResult>, cutoff: int, token: Value, last: Option<int>)
    requires last.Some? ==> last.value >= cutoff
    requires 0 < |pages| && !Continues(pages[0], cutoff, last.None?)
    ensures var r := Walk(pages, cutoff, token, last);
      Stops(pages, cutoff, last.None?, |r.requests|, r.status)
  {
    StepEnds(pages, cutoff, token, last);
    StopsEnd(pages, cutoff, last.None?, Walk(pages, cutoff, token, last).status);
  }

  lemma StopsStep(pages: seq<FetchResult>, cutoff: int, token: Value, last: Option<int>)
    requires last.Some? ==> last.value >= cutoff
    requires 0 < |pages| && Continues(pages[0], cutoff, last.None?)
    requires var next := LastSeen(PostsOnPage(pages[0]).value, last);
      && (next.Some? ==> next.value >= cutoff)
      && var rest := Walk(pages[1..], cutoff, TokenOf(pages[0].body), next);
         Stops(pages[1..], cutoff, next.None?, |rest.requests|, rest.status)
    ensures var r := Walk(pages, cutoff, token, last);
      Stops(pages, cutoff, last.None?, |r.requests|, r.status)
  {
    StepContinues(pages, cutoff, token, last);
    var rest := Walk(pages[1..], cutoff, TokenOf(pages[0].body), LastSeen(PostsOnPage(pages[0]).value, last));
    StopsCons(pages, cutoff, last.None?, |rest.requests|, rest.status);
  }

  /** `post_timestamp` is unbound only on the first page, and only when the
      walk starts without one: a page that continues the loop binds it. */
  lemma {:induction false} WalkStops(pages: seq<FetchResult>, cutoff: int, token: Value, last: Option<int>)
    requires last.Some? ==> last.value >= cutoff
    ensures var r := Walk(pages, cutoff, token, last);
      Stops(pages, cutoff, last.None?, |r.requests|, r.status)
  {
    if |pages| > 0 {
      if !Continues(pages[0], cutoff, last.None?) {
        StopsFirst(pages, cutoff, token, last);
      } else {
        StepContinues(pages, cutoff, token, last);
        WalkStops(pages[1..], cutoff, TokenOf(pages[0].body), LastSeen(PostsOnPage(pages[0]).value, last));
        StopsStep(pages, cutoff, token, last);
      }
    }
  }

  /** The loop goes past a page only when that page continues it, and it
      ends on the page that decides the reason it reports, with
      `post_timestamp` counted as unbound on the first page only. */
  lemma PaginateStops(pages: seq<FetchResult>, cutoff: int)
    ensures var r := Paginate(pages, cutoff);
      && (forall j :: 0 <= j < |r.requests| - 1 ==> Continues(pages[j], cutoff, j == 0))
      && (r.status.Pending? ==> forall j :: 0 <= j < |pages| ==> Continues(pages[j], cutoff, j == 0))
      && (!r.status.Pending? ==> 0 < |r.requests| && EndsWith(pages[|r.requests| - 1], cutoff, r.status, |r.requests| == 1))
  {
    WalkStops(pages, cutoff, Null, None);
    forall j | 0 <= j < |pages|
      ensures ContinuesAt(pages, cutoff, true, j) == Continues(pages[j], cutoff, j == 0)
    {
    }
  }

  /** UnboundLocalError raised by the loop itself (not by a fetch) can only
      come from the first page, and only when that page has no posts. */
  lemma UnboundOnlyOnFirstPage(pages: seq<FetchResult>, cutoff: int)
    ensures var r := Paginate(pages, cutoff);
      r.status == Failed(UnboundLocal) && pages[|r.requests| - 1].Fetched? ==>
        |r.requests| == 1 && PostsOnPage(pages[0]) == Some([]) && !TokenOf(pages[0].body).Null?
  {
    PaginateStops(pages, cutoff);
  }

  /** When every raised page carries an exception `fetch_data` can raise,
      an UnboundLocalError can only come from the first page, and only when
      that page has no posts. */
  lemma UnboundOnlyFromEmptyFirstPage(pages: seq<FetchResult>, cutoff: int)
    requires forall j :: 0 <= j < |pages| && pages[j].Raised? ==> FetchRaises(pages[j].exception)
    ensures var r := Paginate(pages, cutoff);
      r.status == Failed(UnboundLocal) ==>
        |r.requests| == 1 && PostsOnPage(pages[0]) == Some([]) && !TokenOf(pages[0].body).Null?
  {
    PaginateStops(pages, cutoff);
    UnboundOnlyOnFirstPage(pages, cutoff);
  }

  /** Each request after the first carries the token of the page before it,
      or none when that token is falsy. */
  predicate HandsOff(pages: seq<FetchResult>, reqs: seq<Option<string>>) {
    && |reqs| <= |pages|
    && forall j :: 0 <= j < |reqs| - 1 ==> pages[j].Fetched? && reqs[j + 1] == RequestFor(TokenOf(pages[j].body))
  }

  /** Prefixing a fetched page, whose token the next request carries. */
  lemma HandsOffCons(pages: seq<FetchResult>, reqs: seq<Option<string>>, req: Option<string>)
    requires 0 < |pages| && pages[0].Fetched?
    requires HandsOff(pages[1..], reqs)
    requires 0 < |reqs| ==> reqs[0] == RequestFor(TokenOf(pages[0].body))
    ensures HandsOff(pages, [req] + reqs)
  {
    forall j | 1 <= j < |reqs|
      ensures pages[j] == pages[1..][j - 1]
    {
    }
  }

  lemma {:induction false} WalkRequests(pages: seq<FetchResult>, cutoff: int, token: Value, last: Option<int>)
    requires last.Some? ==> last.value >= cutoff
    ensures HandsOff(pages, Walk(pages, cutoff, token, last).requests)
  {
    if |pages| > 0 {
      if !Continues(pages[0], cutoff, last.None?) {
        StepEnds(pages, cutoff, token, last);
      } else {
        StepContinues(pages, cutoff, token, last);
        var items := PostsOnPage(pages[0]).value;
        var next := LastSeen(items, last);
        var rest := Walk(pages[1..], cutoff, TokenOf(pages[0].body), next);
        WalkRequests(pages[1..], cutoff, TokenOf(pages[0].body), next);
        HandsOffCons(pages, rest.requests, RequestFor(token));
      }
    }
  }

  /** The first posts request is for the first page; every later one carries
      the token the previous response returned, and asks for the first page
      again when that token is falsy. */
  lemma PaginateRequests(pages: seq<FetchResult>, cutoff: int)
    ensures var r := Paginate(pages, cutoff);
      && (0 < |r.requests| ==> r.requests[0] == None)
      && forall j :: 0 <= j < |r.requests| - 1 ==>
           pages[j].Fetched? && r.requests[j + 1] == RequestFor(TokenOf(pages[j].body))
  {
    WalkRequests(pages, cutoff, Null, None);
  }

  /** When the first post of the first page is already stale, nothing is
      collected and the loop stops after one request. */
  lemma FirstPostStale(pages: seq<FetchResult>, cutoff: int, items: seq<Value>)
    requires 0 < |pages| && PostsOnPage(pages[0]) == Some(items)
    requires 0 < |items| && IsStale(items[0], cutoff)
    ensures Paginate(pages, cutoff).posts == []
    ensures Paginate(pages, cutoff).status.Finished?
    ensures |Paginate(pages, cutoff).requests| == 1
  {
  }

  /** A first page with no posts and a token reads `post_timestamp` before
      anything assigned it: the loop raises UnboundLocalError. */
  lemma EmptyFirstPageUnbound(pages: seq<FetchResult>, cutoff: int)
    requires 0 < |pages| && pages[0].Fetched?
    requires PostsOnPage(pages[0]) == Some([])
    requires !TokenOf(pages[0].body).Null?
    ensures Paginate(pages, cutoff) == Pagination([], [None], Failed(UnboundLocal))
  {
  }

  /** A response whose `data` is null does not end the loop quietly:
      `'items' in None` raises TypeError. */
  lemma NullDataRaises(pages: seq<FetchResult>, cutoff: int)
    requires 0 < |pages| && pages[0] == Fetched(Obj(map["data" := Null]))
    ensures Paginate(pages, cutoff) == Pagination([], [None], Failed(TypeError))
  {
  }

  /** A page whose token is the empty string does not end the loop, but the
      next request carries no token and so asks for the first page again:
      when the server keeps answering with that page, the loop consumes every
      page it is given, requesting the first page each time. */
  lemma {:induction false} EmptyTokenRefetches(pages: seq<FetchResult>, cutoff: int, token: Value, last: Option<int>, page: FetchResult, items: seq<Value>)
    requires last.Some? ==> last.value >= cutoff
    requires !Truthy(token)
    requires page.Fetched? && TokenOf(page.body) == Str("")
    requires PostsOnPage(page) == Some(items)
    requires 0 < |items| && FreshLength(items, cutoff) == |items|
    requires forall j :: 0 <= j < |pages| ==> pages[j] == page
    ensures var r := Walk(pages, cutoff, token, last);
      && r.status == Pending
      && |r.requests| == |pages|
      && forall j :: 0 <= j < |r.requests| ==> r.requests[j] == None
  {
    if |pages| > 0 {
      var sc := ScanPage(items, cutoff, last);
      assert sc.Scanned? && sc.seen == StampOf(items[|items| - 1]);
      EmptyTokenRefetches(pages[1..], cutoff, Str(""), sc.seen, page, items);
    }
  }
}

=== FILE: persister.dfy ===
/** `save_account_data_to_mongodb` and `save_posts_data_to_mongodb`: the
    documents each would insert. The database write itself becomes the
    returned documents; `datetime.utcnow().isoformat()` is a run-time string
    parameter and `datetime.utcfromtimestamp(t).isoformat()` the function
    `iso`. */
module Persister {
  import opened Json
  import opened Errors

  predicate IsSeparator(c: char) {
    c == ':' || c == '-' || c == '.'
  }

  predicate NoSeparators(s: string) {
    forall i :: 0 <= i < |s| ==> !IsSeparator(s[i])
  }

  /** The run time with every `:`, `-` and `.` removed. */
  function Sanitize(s: string): (r: string)
    ensures NoSeparators(r)
    ensures forall c :: !IsSeparator(c) ==> multiset(r)[c] == multiset(s)[c]
    ensures |r| <= |s|
  {
    if |s| == 0 then ""
    else
      assert s == [s[0]] + s[1..];
      if IsSeparator(s[0]) then Sanitize(s[1..]) else [s[0]] + Sanitize(s[1..])
  }

  /** Sanitising leaves a string unchanged exactly when it has no separator. */
  lemma {:induction false} SanitizeFixed(s: string)
    ensures Sanitize(s) == s <==> NoSeparators(s)
  {
    if |s| > 0 {
      SanitizeFixed(s[1..]);
      if IsSeparator(s[0]) {
        assert |Sanitize(s)| <= |s[1..]| < |s|;
      }
    }
  }

  /** Sanitising twice is sanitising once. */
  lemma SanitizeIdempotent(s: string)
    ensures Sanitize(Sanitize(s)) == Sanitize(s)
  {
    SanitizeFixed(Sanitize(s));
  }

  /** Sanitising works piecewise, so the date part and the time part of a
      run time are cleaned independently. */
  lemma {:induction false} SanitizeAppend(a: string, b: string)
    ensures Sanitize(a + b) == Sanitize(a) + Sanitize(b)
  {
    if |a| > 0 {
      assert (a + b)[1..] == a[1..] + b;
      SanitizeAppend(a[1..], b);
    } else {
      assert a + b == b;
    }
  }

  /** `f"{username}_{sanitized run time}"`. */
  function CompositeId(username: Value, runTime: string): string {
    Format(username) + "_" + Sanitize(runTime)
  }

  /** The id is the username text, an underscore, and a suffix free of
      separators that keeps every other character of the run time. */
  lemma CompositeIdShape(username: Value, runTime: string)
    ensures var id := CompositeId(username, runTime);
      var n := |Format(username)|;
      && |id| == n + 1 + |Sanitize(runTime)|
      && id[..n] == Format(username)
      && id[n] == '_'
      && NoSeparators(id[n + 1..])
      && forall c :: !IsSeparator(c) ==> multiset(id[n + 1..])[c] == multiset(runTime)[c]
  {
    var id := CompositeId(username, runTime);
    var n := |Format(username)|;
    assert id[n + 1..] == Sanitize(runTime);
  }

  /** For one username, two runs get the same id exactly when their run
      times sanitise to the same string. */
  lemma CompositeIdSameUser(username: Value, t1: string, t2: string)
    ensures CompositeId(username, t1) == CompositeId(username, t2) <==> Sanitize(t1) == Sanitize(t2)
  {
    var n := |Format(username)| + 1;
    if CompositeId(username, t1) == CompositeId(username, t2) {
      assert CompositeId(username, t1)[n..] == Sanitize(t1);
      assert CompositeId(username, t2)[n..] == Sanitize(t2);
    }
  }

  /** For one run time, the id determines the username text. */
  lemma CompositeIdSameTime(u1: Value, u2: Value, runTime: string)
    requires CompositeId(u1, runTime) == CompositeId(u2, runTime)
    ensures Format(u1) == Format(u2)
  {
    var id := CompositeId(u1, runTime);
    var m := |Sanitize(runTime)| + 1;
    assert id[..|id| - m] == Format(u1);
    assert CompositeId(u2, runTime)[..|id| - m] == Format(u2);
  }

  function ProfileLink(username: Value): string {
    "https://www.instagram.com/" + Format(username) + "/"
  }

  function PostLink(code: Value): string {
    "https://www.instagram.com/p/" + Format(code) + "/"
  }

  const AccountKeys: set<string> :=
    {"_id", "username", "full_name", "follower_count", "media_count", "profile_link", "run_time"}

  /** The fields copied from the account data, "N/A" when missing. */
  const AccountCopied: set<string> := {"username", "full_name", "follower_count", "media_count"}

  /** The account snapshot built by `save_account_data_to_mongodb`. */
  function AccountDocument(data: map<string, Value>, runTime: string): (doc: Object)
    ensures doc.Keys == AccountKeys
    ensures forall k :: k in AccountCopied ==> doc[k] == Get(data, k, NA)
    ensures doc["_id"] == Str(CompositeId(Get(data, "username", NA), runTime))
    ensures doc["profile_link"] == Str(ProfileLink(Get(data, "username", NA)))
    ensures doc["run_time"] == Str(runTime)
  {
    var username := Get(data, "username", NA);
    var doc := map[
      "_id" := Str(CompositeId(username, runTime)),
      "username" := username,
      "full_name" := Get(data, "full_name", NA),
      "follower_count" := Get(data, "follower_count", NA),
      "media_count" := Get(data, "media_count", NA),
      "profile_link" := Str(ProfileLink(username)),
      "run_time" := Str(runTime)
    ];
    assert doc.Keys == AccountKeys;
    assert doc["_id"] == Str(CompositeId(username, runTime));
    assert doc["profile_link"] == Str(ProfileLink(username));
    assert doc["run_time"] == Str(runTime);
    doc
  }

  /** The stored `taken_at`: "N/A" when the field is missing or falsy, the
      formatted time with a trailing Z for a number, None where
      `utcfromtimestamp` raises TypeError. */
  function TakenAtField(post: map<string, Value>, iso: int -> string): Option<Value> {
    var v := Get(post, "taken_at", Null);
    if !Truthy(v) then Some(NA)
    else match v
      case Int(n) => Some(Str(iso(n) + "Z"))
      case Bool(_) => Some(Str(iso(1) + "Z"))
      case _ => None
  }

  const PostKeys: set<string> :=
    {"id", "username", "code", "taken_at", "like_count", "comment_count", "post_link", "run_time"}

  /** The fields copied from the post, "N/A" when missing. */
  const PostCopied: set<string> := {"id", "code", "like_count", "comment_count"}

  /** The document built for one post, or the exception raised on it. */
  function PostDocument(post: Value, username: string, runTime: string, iso: int -> string): (r: Result<Object>)
    ensures r.Ok? <==> post.Obj? && TakenAtField(post.fields, iso).Some?
    ensures r.Ok? <==> (post.Obj? && var t := Get(post.fields, "taken_at", Null); !Truthy(t) || t.Int? || t.Bool?)
    ensures r.Err? ==> r.exception == (if post.Obj? then TypeError else AttributeError)
    ensures r.Ok? ==>
      && r.value.Keys == PostKeys
      && r.value["username"] == Str(username)
      && r.value["run_time"] == Str(runTime)
      && r.value["post_link"] == Str(PostLink(Get(post.fields, "code", NA)))
      && (r.value["taken_at"] == NA <==> !Truthy(Get(post.fields, "taken_at", Null)))
      && (var t := Get(post.fields, "taken_at", Null);
          && (t.Int? && t.i != 0 ==> r.value["taken_at"] == Str(iso(t.i) + "Z"))
          && (t == Bool(true) ==> r.value["taken_at"] == Str(iso(1) + "Z")))
      && forall k :: k in PostCopied ==> r.value[k] == Get(post.fields, k, NA)
  {
    if !post.Obj? then Err(AttributeError)
    else
      var f := post.fields;
      match TakenAtField(f, iso)
      case None => Err(TypeError)
      case Some(takenAt) =>
        assert Truthy(Get(f, "taken_at", Null)) ==> takenAt.s[|takenAt.s| - 1] == 'Z';
        Ok(map[
          "id" := Get(f, "id", NA),
          "username" := Str(username),
          "code" := Get(f, "code", NA),
          "taken_at" := takenAt,
          "like_count" := Get(f, "like_count", NA),
          "comment_count" := Get(f, "comment_count", NA),
          "post_link" := Str(PostLink(Get(f, "code", NA))),
          "run_time" := Str(runTime)
        ])
  }

  /** The loop of `save_posts_data_to_mongodb`: one document per post in
      order, or the exception raised on the first post that has none. */
  function PostDocuments(posts: seq<Value>, username: string, runTime: string, iso: int -> string): (r: Result<seq<Object>>)
    ensures r.Ok? ==> |r.value| == |posts|
    ensures r.Ok? ==> forall i :: 0 <= i < |posts| ==> PostDocument(posts[i], username, runTime, iso) == Ok(r.value[i])
    ensures r.Err? ==> exists i ::
      && 0 <= i < |posts|
      && PostDocument(posts[i], username, runTime, iso) == Err(r.exception)
      && forall j :: 0 <= j < i ==> PostDocument(posts[j], username, runTime, iso).Ok?
    ensures r.Err? <==> exists i :: 0 <= i < |posts| && PostDocument(posts[i], username, runTime, iso).Err?
    decreases |posts|
  {
    if |posts| == 0 then Ok([])
    else
      match PostDocument(posts[0], username, runTime, iso)
      case Err(e) => Err(e)
      case Ok(doc) =>
        assert forall i :: 1 <= i < |posts| ==> posts[i] == posts[1..][i - 1];
        match PostDocuments(posts[1..], username, runTime, iso)
        case Err(e) =>
          ghost var i :| 0 <= i < |posts[1..]|
            && PostDocument(posts[1..][i], username, runTime, iso) == Err(e)
            && forall j :: 0 <= j < i ==> PostDocument(posts[1..][j], username, runTime, iso).Ok?;
          assert PostDocument(posts[i + 1], username, runTime, iso) == Err(e);
          assert forall j :: 0 <= j < i + 1 ==> PostDocument(posts[j], username, runTime, iso).Ok?;
          Err(e)
        case Ok(docs) =>
          Ok([doc] + docs)
  }

  /** What `save_posts_data_to_mongodb` hands to `insert_many`. */
  datatype Batch =
    | Insert(docs: seq<Object>)
    | NothingToInsert
    | BatchFailed(exception: Exception)

  /** `save_posts_data_to_mongodb(posts, username)`: one document per post,
      in order, all stamped with the same run time and the given username;
      no insert for an empty batch; the first post without a document
      aborts the batch with its exception. */
  function SavePosts(posts: seq<Value>, username: string, runTime: string, iso: int -> string): (b: Batch)
    ensures b.NothingToInsert? <==> |posts| == 0
    ensures b.BatchFailed? <==> exists i :: 0 <= i < |posts| && PostDocument(posts[i], username, runTime, iso).Err?
    ensures b.Insert? ==> |b.docs| == |posts|
    ensures b.Insert? ==> forall i :: 0 <= i < |posts| ==> PostDocument(posts[i], username, runTime, iso) == Ok(b.docs[i])
    ensures b.BatchFailed? ==> exists i ::
      && 0 <= i < |posts|
      && PostDocument(posts[i], username, runTime, iso) == Err(b.exception)
      && forall j :: 0 <= j < i ==> PostDocument(posts[j], username, runTime, iso).Ok?
    ensures b.Insert? ==> forall i :: 0 <= i < |posts| ==>
      && posts[i].Obj?
      && b.docs[i].Keys == PostKeys
      && b.docs[i]["run_time"] == Str(runTime)
      && b.docs[i]["username"] == Str(username)
      && b.docs[i]["post_link"] == Str(PostLink(Get(posts[i].fields, "code", NA)))
      && b.docs[i]["id"] == Get(posts[i].fields, "id", NA)
  {
    match PostDocuments(posts, username, runTime, iso)
    case Err(e) => BatchFailed(e)
    case Ok(docs) => if |docs| == 0 then NothingToInsert else Insert(docs)
  }
}

=== FILE: scraper.dfy ===
/** `get_all_data`: one run for one account. It fetches the account, writes
    its snapshot, walks the posts pages and writes one batch of post
    documents. Each fetch is given by its result (what `fetch_data` returned
    or raised); the two `utcnow()` readings are the parameters
    `accountRunTime` and `postsRunTime`, and `end_time` is `cutoff`. */
module Scraper {
  import opened Json
  import opened Errors
  import opened Fetcher
  import opened Paginator
  import opened Persister

  datatype RunStatus =
    | Completed
    | Aborted(exception: Exception)
    | Unfinished   // the posts loop asks for more pages than were given

  /** What a run writes (the account snapshot and the post documents), the
      token sent with each posts request, and how the run ended. */
  datatype Run = Run(account: Option<Object>, posts: seq<Object>, postRequests: seq<Option<string>>, status: RunStatus)

  /** The account data a snapshot is built from: `account_data_response['data']`
      when the response has it and it is an object. */
  function AccountData(account: FetchResult): Option<Object> {
    if account.Fetched? && Member(account.body, "data").Ok?
       && Member(account.body, "data").value.Some? && Member(account.body, "data").value.value.Obj?
    then Some(Member(account.body, "data").value.value.fields)
    else None
  }

  function GetAllData(
    username: string, account: FetchResult, pages: seq<FetchResult>, cutoff: int,
    accountRunTime: string, postsRunTime: string, iso: int -> string): (r: Run)
    ensures r.account.None? ==> r.posts == [] && r.postRequests == []
    ensures r.posts != [] ==> r.status == Completed && r.account.Some?
    ensures r.account.Some? <==> AccountData(account).Some?
    ensures AccountData(account).Some? ==> r.account == Some(AccountDocument(AccountData(account).value, accountRunTime))
    ensures AccountData(account).Some? ==>
      var p := Paginate(pages, cutoff);
      && r.postRequests == p.requests
      && (p.status.Failed? ==> r.posts == [] && r.status == Aborted(p.status.exception))
      && (p.status.Pending? ==> r.posts == [] && r.status == Unfinished)
    ensures account.Raised? ==> r == Run(None, [], [], Aborted(account.exception))
    ensures account.Fetched? ==>
      var d := Member(account.body, "data");
      && (d.Err? ==> r == Run(None, [], [], Aborted(d.exception)))
      && (d == Ok(None) ==> r == Run(None, [], [], Completed))
      && (d.Ok? && d.value.Some? && !d.value.value.Obj? ==> r == Run(None, [], [], Aborted(AttributeError)))
  {
    match account
    case Raised(e) => Run(None, [], [], Aborted(e))
    case Fetched(resp) =>
      match Member(resp, "data")
      case Err(e) => Run(None, [], [], Aborted(e))
      case Ok(None) => Run(None, [], [], Completed)
      case Ok(Some(data)) =>
        if !data.Obj? then Run(None, [], [], Aborted(AttributeError))
        else
          var snapshot := AccountDocument(data.fields, accountRunTime);
          var p := Paginate(pages, cutoff);
          match p.status
          case Failed(e) => Run(Some(snapshot), [], p.requests, Aborted(e))
          case Pending => Run(Some(snapshot), [], p.requests, Unfinished)
          case Finished(_) =>
            match SavePosts(p.posts, username, postsRunTime, iso)
            case Insert(docs) => Run(Some(snapshot), docs, p.requests, Completed)
            case NothingToInsert => Run(Some(snapshot), [], p.requests, Completed)
            case BatchFailed(e) => Run(Some(snapshot), [], p.requests, Aborted(e))
  }

  /** A null account response raises TypeError on `'data' in None`:
      nothing is written and no posts request is sent. */
  lemma NullAccountResponseAborts(
    username: string, pages: seq<FetchResult>, cutoff: int,
    accountRunTime: string, postsRunTime: string, iso: int -> string)
    ensures GetAllData(username, Fetched(Null), pages, cutoff, accountRunTime, postsRunTime, iso)
      == Run(None, [], [], Aborted(TypeError))
  {
  }

  /** Every post the loop collects can be stored: a post with a usable
      timestamp is an object whose `taken_at` is missing or a number. */
  lemma FreshPostsPersist(posts: seq<Value>, cutoff: int, username: string, runTime: string, iso: int -> string)
    requires forall i :: 0 <= i < |posts| ==> IsFresh(posts[i], cutoff)
    ensures !SavePosts(posts, username, runTime, iso).BatchFailed?
  {
    forall i | 0 <= i < |posts|
      ensures PostDocument(posts[i], username, runTime, iso).Ok?
    {
      assert IsFresh(posts[i], cutoff);
    }
  }

  /** A run whose posts loop ends with a break is never aborted afterwards:
      it stores one document per collected post, in order, all with the same
      run time and the run's username. */
  lemma RunStoresCollected(
    username: string, account: FetchResult, pages: seq<FetchResult>, cutoff: int,
    accountRunTime: string, postsRunTime: string, iso: int -> string)
    requires AccountData(account).Some?
    requires Paginate(pages, cutoff).status.Finished?
    ensures var r := GetAllData(username, account, pages, cutoff, accountRunTime, postsRunTime, iso);
      var collected := Paginate(pages, cutoff).posts;
      && r.status == Completed
      && |r.posts| == |collected|
      && r.postRequests == Paginate(pages, cutoff).requests
      && forall i :: 0 <= i < |collected| ==>
           && PostDocument(collected[i], username, postsRunTime, iso) == Ok(r.posts[i])
           && r.posts[i]["run_time"] == Str(postsRunTime)
           && r.posts[i]["username"] == Str(username)
  {
    var collected := Paginate(pages, cutoff).posts;
    FreshPostsPersist(collected, cutoff, username, postsRunTime, iso);
    var b := SavePosts(collected, username, postsRunTime, iso);
    assert b.Insert? || b.NothingToInsert?;
    if b.Insert? {
      var docs := PostDocuments(collected, username, postsRunTime, iso).value;
      assert b.docs == docs;
    }
  }

  /** When the first page's first post is already older than the cutoff,
      the run stores the snapshot but no post. */
  lemma StaleFirstPostStoresNothing(
    username: string, account: FetchResult, pages: seq<FetchResult>, cutoff: int, items: seq<Value>,
    accountRunTime: string, postsRunTime: string, iso: int -> string)
    requires AccountData(account).Some?
    requires 0 < |pages| && PostsOnPage(pages[0]) == Some(items)
    requires 0 < |items| && IsStale(items[0], cutoff)
    ensures var r := GetAllData(username, account, pages, cutoff, accountRunTime, postsRunTime, iso);
      r.account.Some? && r.posts == [] && r.status == Completed && |r.postRequests| == 1
  {
    FirstPostStale(pages, cutoff, items);
  }

  /** A run whose posts loop is given two posts on one page, one inside the
      window and one older, with no further token, stores exactly the first
      one. */
  lemma OneOfTwoPostsInWindow(
    account: FetchResult, recent: map<string, Value>, aged: map<string, Value>, cutoff: int,
    accountRunTime: string, postsRunTime: string, iso: int -> string)
    requires AccountData(account).Some?
    requires "taken_at" in recent && recent["taken_at"].Int? && recent["taken_at"].i >= cutoff
    requires "taken_at" in aged && aged["taken_at"].Int? && aged["taken_at"].i < cutoff
    ensures var page := Fetched(Obj(map["data" := Obj(map["items" := Arr([Obj(recent), Obj(aged)])])]));
      var r := GetAllData("acct", account, [page], cutoff, accountRunTime, postsRunTime, iso);
      && r.status == Completed
      && |r.posts| == 1
      && PostDocument(Obj(recent), "acct", postsRunTime, iso) == Ok(r.posts[0])
  {
    var items := [Obj(recent), Obj(aged)];
    var resp := Obj(map["data" := Obj(map["items" := Arr(items)])]);
    var page := Fetched(resp);
    assert PostsOnPage(page) == Some(items);
    assert TokenOf(resp) == Null;
    assert FreshLength(items, cutoff) == 1 by {
      assert IsFresh(items[0], cutoff) && !IsFresh(items[1], cutoff);
    }
    assert Paginate([page], cutoff).posts == [Obj(recent)];
    RunStoresCollected("acct", account, [page], cutoff, accountRunTime, postsRunTime, iso);
  }
}

=== FILE: values.dfy ===
/** The Python exceptions the scraper can raise or let escape, and the
    Option/Result wrappers used to carry them. */
module Errors {

  datatype Option<+T> = None | Some(value: T)

  datatype Exception =
    /** `Exception("Failed to fetch data after N attempts")` */
    | RetriesExhausted(maxRetries: int)
    /** any exception other than `HTTPException` raised while requesting */
    | Unretried(kind: string)
    /** `post_timestamp` read before any post was examined */
    | UnboundLocal
    /** `.get` called on something that is not a dict */
    | AttributeError
    /** a timestamp or an `items` value of the wrong type */
    | TypeError

  datatype Result<+T> = Ok(value: T) | Err(exception: Exception)
}

/** JSON values as the scraper handles them after decoding, together with the
    three Python built-ins it applies to them: truthiness, `str()` inside an
    f-string, and `dict.get` with a default. */
module Json {
  import opened Errors

  /** A decoded JSON value. Floating-point numbers are not modelled. */
  datatype Value =
    | Null
    | Bool(b: bool)
    | Int(i: int)
    | Str(s: string)
    | Arr(elems: seq<Value>)
    | Obj(fields: map<string, Value>)

  /** A JSON object, and also the shape of every stored document. */
  type Object = map<string, Value>

  /** The sentinel the scraper stores for a missing field. */
  const NA: Value := Str("N/A")

  /** Python truthiness of a decoded value. */
  predicate Truthy(v: Value) {
    match v
    case Null => false
    case Bool(b) => b
    case Int(i) => i != 0
    case Str(s) => s != ""
    case Arr(e) => e != []
    case Obj(f) => f != map[]
  }

  /** `o.get(key, default)`. */
  function Get(o: Object, key: string, default: Value): Value {
    if key in o then o[key] else default
  }

  function Digit(d: nat): char
    requires d < 10
  {
    "0123456789"[d]
  }

  function Natural(n: nat): string
    decreases n
  {
    if n < 10 then [Digit(n)] else Natural(n / 10) + [Digit(n % 10)]
  }

  function Decimal(i: int): string {
    if i < 0 then "-" + Natural(-i) else Natural(i)
  }

  /** The text an f-string interpolates for a value (`str(v)`). Arrays and
      objects get a placeholder rather than Python's repr. */
  function Format(v: Value): string {
    match v
    case Null => "None"
    case Bool(b) => if b then "True" else "False"
    case Int(i) => Decimal(i)
    case Str(s) => s
    case Arr(_) => "[...]"
    case Obj(_) => "{...}"
  }

  /** `key` occurs in `s` as a substring. */
  predicate Occurs(key: string, s: string) {
    exists i :: 0 <= i <= |s| && key <= s[i..]
  }

  /** `c[key] if key in c else None`, with Python's semantics for every
      kind of value: an object is looked up by key; an array or a string
      answers `in` by element or substring, but then cannot be indexed by
      a string (TypeError); `in` on null, a boolean or a number raises
      TypeError at once. */
  function Member(c: Value, key: string): Result<Option<Value>> {
    match c
    case Obj(f) => Ok(if key in f then Some(f[key]) else None)
    case Arr(e) => if Str(key) in e then Err(TypeError) else Ok(None)
    case Str(s) => if Occurs(key, s) then Err(TypeError) else Ok(None)
    case _ => Err(TypeError)
  }
}
